=== FILE: README.md ===
# Day Guesser: a Dafny model of the game, the leaderboard and the score API

Day Guesser shows a random calendar date and asks the player to name its weekday.
This project models the sequential logic of four parts of that app and proves
properties about them:

- **Game session** (`game.dfy`, module `Game`). This is the state machine of
  `src/components/Game.jsx`. It covers starting a practice, 5-date or 10-date
  challenge, generating a round, the once-only guess, counting correct answers in
  challenges, moving to the next round or to the results, returning to the menu,
  and how the answer buttons are highlighted.
  - The React state is a `State` record and each handler is a pure transition.
  - React batches the setters of one handler, and a handler reads the state of the
    render it was created in. The transitions follow both rules.
  - The effect that starts a new challenge round when `currentRound` changes is
    folded into `HandleNext`. That is the only transition after which its
    condition can hold.
  - The weekday of the random date is a parameter of type `Weekday` (0..6).
  - `Event`, `Enabled` and `Apply` describe which button each screen shows.
    `Inv` is the invariant every button press keeps.
- **Leaderboard ranking** (`leaderboard.dfy`, module `Leaderboard`). This covers
  `processScores` and the per-mode filters of `src/components/Leaderboard.jsx`.
  On a list sorted the way the API returns it, `processScores` gives standard
  competition ranks ("1, 1, 3"): each rank is one more than the number of rows
  strictly ahead.
- **Score API** (`scores.dfy`, module `Scores`). This covers the handler of
  `api/scores.js`: method dispatch (405), the ordered POST checks (400), the insert
  (201) and the GET listing (200).
  - JSON bodies are `JsValue`s with JavaScript truthiness.
  - The table is a sequence of `Row`s.
  - Whether the database call succeeds is a parameter (500 when it fails).
- **Countdown** (`countdown.dfy`, module `Countdown`). This covers the tick and expiry
  step of `src/components/CountdownTimer.jsx` and its `M:SS` display. Each interval
  callback is one step.

`wrappers.dfy` holds the `Option` type that stands for `null` slots.

Facts about the code that shape the model:

- The modes are the three fixed menu buttons (practice, 5-date and 10-date
  challenge); there is no other mode and no validation of a round count.
- `handleNext` does not check that the round is finished. Only the screen prevents
  it, because the "Next" button is drawn only for a finished round. `Enabled`
  models that restriction.
- The countdown component is not used by the game.

## Model

| member | source | states |
|---|---|---|
| `Game.StartNewRound` | src/components/Game.jsx:65-80 | The new round is open, has no guess, and its correct answer is the supplied weekday. Session fields stay unchanged. The message is the prompt in practice, otherwise "Date k of N" from the handler's render. |
| `Game.SetupAndStartGame` | src/components/Game.jsx:54-63 | Starting a game puts the screen on playing, in the chosen mode and total, on round 1, with 0 correct answers. The round is open with its weekday in 0..6, and the message suits the new mode. |
| `Game.SetupAndStartGameAsWritten` | src/components/Game.jsx:54-63 | As written, the same state except the message. The message is built from the mode, round and total of the render the menu was drawn in. |
| `Game.SetupDiffersOnlyInMessage` | src/components/Game.jsx:54-80 | Starting a game as written and starting it as corrected give the same state apart from the message. |
| `Game.StaleFirstMessage` | src/components/Game.jsx:74-78 | On a freshly mounted component, starting practice as written shows "Date 1 of 0". The corrected start shows the practice prompt. |
| `Game.HandleGuess` | src/components/Game.jsx:82-103 | A finished round ignores the guess. An open round records the guess and closes. The count rises by exactly 1 when the mode is a challenge and the guess is the correct day, and otherwise stays the same, so practice never scores. The message reports whether the guess was right. |
| `Game.GuessOnce` | src/components/Game.jsx:83 | A second guess on the same round changes nothing, so each round is answered at most once. |
| `Game.HandleNext` | src/components/Game.jsx:105-126 | Practice starts a new open round on the same screen and round number. A challenge goes to results when `currentRound >= totalRounds`. Otherwise it moves to the next round number and, while playing, starts that round with the message "Date k+1 of N". The results screen is reached if and only if the challenge is on its last round. |
| `Game.ReturnToMenu` | src/components/Game.jsx:128-132 | The screen becomes the menu and the mode is cleared. Nothing else changes. |
| `Game.ReturnToMenuIdempotent` | src/components/Game.jsx:128-132 | Returning to the menu twice has the same effect as once. |
| `Game.ButtonClassName` | src/components/Game.jsx:134-139 | While the round is open a button gets the class `''`. Otherwise the correct day gets `'correct-answer'`, even when it was guessed. The guessed day gets `'wrong-answer'` only if it is not the correct one. Every other day gets `'other-button'`. |
| `Game.ShowHowTo` | src/components/Game.jsx:157 | The menu's "How to Play" button moves to the how-to screen and changes nothing else. |
| `Game.HighlightAfterGuess` | src/components/Game.jsx:134-139 | After a guess on an open round, exactly the correct day is marked correct. The guessed day is marked wrong exactly when the guess was wrong. All other buttons are marked as neither. |
| `Game.InitialInv` | src/components/Game.jsx:23-44 | The state the component mounts with satisfies the session invariant. |
| `Game.InvPreserved` | src/components/Game.jsx:54-157 | Every button a screen shows keeps the session invariant. In a challenge the round stays within 1..N and correct answers never exceed the rounds answered. In practice the round stays at 1 and the count at 0. The results screen is reached only on the last round of a challenge. |
| `Game.ReachableBounds` | src/components/Game.jsx:99-120 | In every state the buttons can reach, a challenge has counted between 0 and `totalRounds` correct answers and practice has counted none. On the results screen the round count is positive, so the average guard `totalRounds > 0` holds. |
| `Game.ChallengeRunsToResults` | src/components/Game.jsx:105-126 | From an open round k of an N-round challenge, answering and pressing "Next" N-k+1 times ends on the results screen at round N. The count rises by exactly the number of correct guesses. |
| `Game.ChallengeFromMenu` | src/components/Game.jsx:154-156 | A 5- or 10-date challenge started from the menu ends on the results screen after its last round. Its count equals the correct guesses and is at most the round count. |
| `Game.PracticeNeverEnds` | src/components/Game.jsx:107-108 | However many practice rounds are played, the game stays on the playing screen at the same round number and never scores. |
| `Leaderboard.ProcessScores` | src/components/Leaderboard.jsx:10-22 | The output has the same length and order as the input. Each row is unchanged apart from an added rank. The first rank is 1. A row strictly behind its predecessor is ranked at its 1-based position. Any other row repeats its predecessor's rank. |
| `Leaderboard.RankBounds` | src/components/Leaderboard.jsx:11-21 | Every rank lies between 1 and the row's 1-based position. |
| `Leaderboard.RankMonotone` | src/components/Leaderboard.jsx:11-21 | Ranks never decrease down the list. |
| `Leaderboard.CompetitionRank` | src/components/Leaderboard.jsx:10-22 | On a list sorted by score descending, then time ascending, each rank is one more than the number of rows strictly ahead. Tied rows share a rank, and the ranks after a tie skip ahead. |
| `Leaderboard.ForMode` | src/components/Leaderboard.jsx:48-49 | The filtered list holds exactly the rows of the given mode. |
| `Leaderboard.ForModeOrder` | src/components/Leaderboard.jsx:48-49 | The filter keeps the relative order of the rows. Each row of the mode appears as many times as in the input, and rows of other modes do not appear. |
| `Leaderboard.ForModeKeepsSorted` | src/components/Leaderboard.jsx:48-49 | Filtering a sorted listing leaves it sorted. |
| `Leaderboard.Boards` | src/components/Leaderboard.jsx:48-49 | The 5-date board ranks exactly the 5-date rows and the 10-date board exactly the 10-date rows, each with `processScores` ranks. |
| `Leaderboard.BoardRanksAreCompetitionRanks` | src/components/Leaderboard.jsx:48-49 | Take any sorted listing, such as the one a GET returns, and filter it to one mode. Each rank on that board is one more than the number of that mode's rows strictly ahead. |
| `Scores.PassesExactlyWhenWellFormed` | api/scores.js:45-53 | A request passes validation exactly when its name is a string of 1 to 15 UTF-16 code units, its mode is `challenge_5` or `challenge_10`, and its score and time are present. |
| `Scores.Validate` | api/scores.js:45-53 | The checks run in order: missing fields, then the name, then the mode, each rejected with 400. The name's length is counted in UTF-16 code units (`Scores.JsLength`), as JavaScript's `length` counts it. A score of 0 counts as present. An empty name is reported as missing. A request passes if and only if no check fails. |
| `Scores.JsLength` | api/scores.js:48 | A string's JavaScript length lies between its character count and twice that, and equals the character count when every character is in the Basic Multilingual Plane. |
| `Scores.JsLengthConcat` | api/scores.js:48 | The JavaScript length of a concatenation is the sum of the parts' lengths. |
| `Scores.JsLengthChar` | api/scores.js:48 | A single character counts 2 code units when it lies outside the Basic Multilingual Plane (at or above U+10000) and 1 otherwise. Together with `Scores.JsLengthConcat`, this fixes the length of every string. |
| `Scores.MixedNameFits` | api/scores.js:48 | Thirteen `a`s followed by U+1F600 are exactly 15 code units, the largest name accepted. |
| `Scores.AstralNameTooLong` | api/scores.js:48-50 | A name of eight U+1F600 characters is sixteen code units long and is refused as an invalid name. |
| `Scores.ScoreOutOfRangeNotSaved` | api/scores.js:54-62 | A valid request whose score of 3000000000 is outside INT's range fails at the insert with 500 and stores nothing. |
| `Scores.NulNameNotSaved` | api/scores.js:54-62 | A valid request whose name is U+0000 fails at the insert with 500 and stores nothing. Postgres text cannot hold that character. |
| `Scores.HandlePost` | api/scores.js:40-64 | A rejected or failed request leaves the table unchanged. A save appends exactly one row with the given fields and answers 201. This happens exactly when the table changes, and only for a request that passes every check, whose score is a whole number within INT's range (`Scores.ColumnValues`), and whose name holds no U+0000 (`Scores.TextStorable`). An undestructurable body, a score or time the columns refuse, a name holding U+0000, or a database failure answers 500. |
| `Scores.HandleGet` | api/scores.js:14-38 | A GET leaves the table unchanged. On success it returns every row, as a permutation of the table, sorted by score descending, then time ascending. |
| `Scores.SortForListing` | api/scores.js:29-32 | The listing is sorted by score descending, then time ascending, and is a permutation of the table. |
| `Scores.Handle` | api/scores.js:3-12 | GET is answered by `handleGet` and POST by `handlePost`. Any method other than GET or POST yields 405 and leaves the table unchanged. 405 occurs only then. A GET never changes the table. Any change appends exactly one row. |
| `Countdown.Effect` | src/components/CountdownTimer.jsx:7-21 | When the remaining time is at most 0, `onTimeUp` fires and nothing is scheduled. Otherwise a tick lowers the time by exactly 1. |
| `Countdown.RunCountsDown` | src/components/CountdownTimer.jsx:15-17 | From n seconds left, each of the first n ticks lowers the time by exactly one. |
| `Countdown.ExpiresAfterDuration` | src/components/CountdownTimer.jsx:5-17 | A timer starts with `duration` seconds. For d ≥ 0 it keeps running for d ticks, expires right after the d-th, and never ticks again. |
| `Countdown.ExpiresAtOnce` | src/components/CountdownTimer.jsx:9-12 | A timer started with no time left expires at once, without a tick. |
| `Countdown.JsRem` | src/components/CountdownTimer.jsx:25 | JavaScript's `%` by a positive divisor is the remainder of division truncated toward zero. It lies in 0..b-1 for a non-negative dividend and in -(b-1)..0 for a negative one. |
| `Countdown.Clock` | src/components/CountdownTimer.jsx:24-25 | For t ≥ 0, minutes and seconds recombine to t and the seconds lie in 0..59. For t < 0, the minutes are negative and the seconds lie in -59..0. |
| `Countdown.PadSecondsTwoDigits` | src/components/CountdownTimer.jsx:29 | Every seconds value 0..59 prints as exactly two digits denoting it, with a leading `0` below 10. |
| `Countdown.DisplayReadsBack` | src/components/CountdownTimer.jsx:24-29 | For t ≥ 0 the display is minutes, a colon, then two second digits. Read back, they give `t div 60` and `t mod 60`, and `60·M + SS = t`. |

## Findings

| source | as written | input that shows it | evidently intended | confidence | as-written member | corrected member |
|---|---|---|---|---|---|---|
| src/components/Game.jsx:54-80 | `setupAndStartGame` calls `startNewRound` inside the same handler. That function builds the round message from the `gameMode`, `currentRound` and `totalRounds` of the menu's render, not from the values being set. | Press "Practice Mode" on a freshly mounted game: `gameMode` is `null`, `currentRound` is 1 and `totalRounds` is 0, so round 1 says "Date 1 of 0". After a 5-date challenge, starting a 10-date challenge says "Date 5 of 5". | Practice opens with "What day of the week is it?" and a challenge of N with "Date 1 of N". | high; not executed | `Game.SetupAndStartGameAsWritten`, `Game.StaleFirstMessage` | `Game.SetupAndStartGame` |

The two starts differ only in the message (`Game.SetupDiffersOnlyInMessage`). The menu events (`Game.Apply`) and the session lemmas start games as written, because the invariant and the scoring do not depend on the message; `Game.SetupAndStartGame` is the corrected start and states the intended message.

## Left out

- Random dates and `Date.getDay()` are left out. The round's weekday is a parameter in 0..6, and the shown date and its formatting are not modelled.
- Timing is left out because it is clock reads and floating point. This covers round and challenge times, `Date.now()`, the `/ 1000` conversion, `toFixed` and the average-time division. Only the `totalRounds > 0` guard is kept, as `Game.HasAverage`.
- UI-only state and effects are left out. This covers `feedback`, `currentDate`, `lastRoundTime`, sounds, JSX markup and CSS. The message is kept only by its shape (`Game.Message`); the weekday name and number formatting inside it are not modelled.
- `Game.HandleGuess` and `Game.HandleNext` require a mode to be set. `handleGuess` calls `gameMode.startsWith` and would throw with `null`. `handleNext` itself never dereferences the mode: with `null` it would take the challenge branch, and only the effect at Game.jsx:123 would dereference it, and only on the playing screen. Both buttons are drawn only on the playing screen, which always has a mode, so the model leaves the `null` case out.
- The how-to screen is modelled only as a screen reached from the menu (`Game.ShowHowTo`) and left through `returnToMenu`. Its content is static text.
- In the leaderboard, `fetch`, loading and error states, and `formatTime` are left out. They are network I/O and presentation.
- The score API's SQL execution and `CREATE TABLE` are not modelled. Any database failure is the `dbOk` parameter, answered with 500.
- `Scores.HandlePost`: only JSON numbers are accepted for the columns: a whole number within INT's range for score, any number for time. Any other value sent for `score` or `time` is treated as a failed insert (500). The database's own text-to-number coercion is not modelled. The `VARCHAR(15)` limit needs no model: a name of at most 15 UTF-16 code units has at most 15 characters.
- `Scores.HandlePost`: JSON numbers are finite reals (`Num(x: real)`, `Row.time: real`). A number that `JSON.parse` overflows to `Infinity` (such as `1e400` for `time`) is not modelled. The FLOAT column would store it, and a later GET would list that time as `null`.
- `Scores.JsLength`: strings are sequences of Unicode scalar values. A lone UTF-16 surrogate, which JSON can carry and JavaScript counts as one code unit, is not modelled.
- `Scores.SortForListing`: SQL leaves the order of rows with equal score and time unspecified. The model fixes one (a stable insertion sort). The contracts state only what `ORDER BY` guarantees.
- `Countdown.ExpiresAfterDuration`: durations and remaining times are whole seconds (`int`). The component accepts any JavaScript number; a fractional duration such as 2.5 would expire after 3 ticks and display fractional seconds (`0:02.5`). No shown file mounts the component, and fractional durations are not modelled.
- The countdown's `setInterval`/`clearInterval` scheduling is left out. So is re-firing `onTimeUp` when a new callback is passed. Each tick is one step.
- For negative remaining times, the display is modelled as the source computes it (for example, -5 gives minutes -1 and seconds -5). No read-back property is stated, because the timer itself stops at 0.

=== FILE: countdown.dfy ===
/**
 Model of src/components/CountdownTimer.jsx: a remaining-time counter that
 loses one second per tick and reports expiry once it reaches zero, and the
 `minutes:seconds` text it shows.

 The one-second interval itself is not modelled: each tick is one step.
 */
module Countdown {

  import opened Wrappers

  datatype Timer = Timer(timeLeft: int)

  /** The timer a component mounted with `duration` starts from. */
  function Start(duration: int): Timer {
    Timer(duration)
  }

  /** What the effect does for the current remaining time. */
  datatype Step =
    | TimeUp          // `onTimeUp` is called and no interval is scheduled
    | Tick(next: Timer) // an interval is scheduled whose callback lowers the time by one

  function Effect(t: Timer): (e: Step)
    ensures e == TimeUp <==> t.timeLeft <= 0
    ensures e.Tick? ==> e.next.timeLeft == t.timeLeft - 1
  {
    if t.timeLeft <= 0 then TimeUp else Tick(Timer(t.timeLeft - 1))
  }

  /** The timer after `k` ticks, or `None` if expiry fired before `k` ticks happened. */
  function Run(t: Timer, k: nat): Option<Timer>
    decreases k
  {
    if k == 0 then Some(t)
    else match Effect(t)
      case TimeUp => None
      case Tick(next) => Run(next, k - 1)
  }

  /** From `n` seconds left, each of the first `n` ticks lowers the time by exactly one. */
  lemma {:induction false} RunCountsDown(n: int, k: nat)
    requires k <= n
    ensures Run(Timer(n), k) == Some(Timer(n - k))
  {
    if k > 0 {
      RunCountsDown(n - 1, k - 1);
    }
  }

  /**
   A timer started with `d >= 0` seconds stays running for the first `d` ticks,
   expires exactly after the `d`-th, and ticks no further.
   */
  lemma ExpiresAfterDuration(d: int, k: nat)
    requires 0 <= d
    ensures Start(d).timeLeft == d
    ensures k <= d ==> Run(Start(d), k) == Some(Timer(d - k))
    ensures k <= d ==> (Effect(Timer(d - k)) == TimeUp <==> k == d)
    ensures k > d ==> Run(Start(d), k) == None
  {
    if k <= d {
      RunCountsDown(d, k);
    } else {
      RunCountsDown(d, d);
      RunSplit(Start(d), d, k - d);
    }
  }

  /** Running `a` ticks and then `b` more is running `a + b` ticks. */
  lemma {:induction false} RunSplit(t: Timer, a: nat, b: nat)
    requires Run(t, a).Some?
    ensures Run(t, a + b) == Run(Run(t, a).value, b)
    decreases a
  {
    if a > 0 {
      RunSplit(Effect(t).next, a - 1, b);
    }
  }

  /** A timer mounted with no time left expires at once, without ticking. */
  lemma ExpiresAtOnce(d: int)
    requires d <= 0
    ensures Effect(Start(d)) == TimeUp
    ensures Run(Start(d), 1) == None
  {
  }

  // ---------------------------------------------------------------------------
  // Display
  // ---------------------------------------------------------------------------

  /** JavaScript's `%`: the remainder takes the sign of the dividend. */
  function JsRem(a: int, b: int): (r: int)
    requires b > 0
    ensures a >= 0 ==> 0 <= r < b
    ensures a < 0 ==> -b < r <= 0
    ensures a - r == b * (if a >= 0 then a / b else -((-a) / b))
  {
    if a >= 0 then a % b else -((-a) % b)
  }

  /**
   `Math.floor(timeLeft / 60)` and `timeLeft % 60`. Dafny's `/` by a positive
   divisor already rounds down, as `Math.floor` does.
   */
  function Clock(t: int): (r: (int, int))
    ensures t >= 0 ==> r.0 * 60 + r.1 == t && 0 <= r.1 < 60 && r.0 >= 0
    ensures t < 0 ==> r.0 < 0 && -60 < r.1 <= 0
  {
    (t / 60, JsRem(t, 60))
  }

  function DigitChar(d: int): (c: char)
    requires 0 <= d < 10
    ensures '0' <= c <= '9' && c as int - '0' as int == d
  {
    ('0' as int + d) as char
  }

  predicate IsDigit(c: char) {
    '0' <= c <= '9'
  }

  predicate AllDigits(s: string) {
    forall k :: 0 <= k < |s| ==> IsDigit(s[k])
  }

  /** Decimal text of a natural number, as a template literal prints it. */
  function NatToString(n: nat): string
  {
    if n < 10 then [DigitChar(n)] else NatToString(n / 10) + [DigitChar(n % 10)]
  }

  function IntToString(i: int): string
  {
    if i < 0 then "-" + NatToString(-i) else NatToString(i)
  }

  /** The number a string of decimal digits denotes. */
  function DigitsValue(s: string): nat
    requires AllDigits(s)
  {
    if |s| == 0 then 0
    else DigitsValue(s[..|s| - 1]) * 10 + (s[|s| - 1] as int - '0' as int)
  }

  /** Reading the printed digits back gives the number. */
  lemma {:induction false} NatToStringReadsBack(n: nat)
    ensures |NatToString(n)| >= 1
    ensures AllDigits(NatToString(n))
    ensures DigitsValue(NatToString(n)) == n
  {
    if n >= 10 {
      NatToStringReadsBack(n / 10);
      var prefix := NatToString(n / 10);
      var s := prefix + [DigitChar(n % 10)];
      assert s == NatToString(n);
      assert s[..|s| - 1] == prefix;
      assert AllDigits(s);
      assert DigitsValue(s) == DigitsValue(prefix) * 10 + n % 10;
    }
  }

  /** The seconds field: a leading `0` below 10. */
  function PadSeconds(seconds: int): string
  {
    if seconds < 10 then "0" + IntToString(seconds) else IntToString(seconds)
  }

  /** Every seconds value of a non-negative time prints as exactly two digits denoting it. */
  lemma PadSecondsTwoDigits(seconds: int)
    requires 0 <= seconds < 60
    ensures |PadSeconds(seconds)| == 2
    ensures AllDigits(PadSeconds(seconds))
    ensures DigitsValue(PadSeconds(seconds)) == seconds
  {
    var f := PadSeconds(seconds);
    if seconds < 10 {
      assert f == [DigitChar(0), DigitChar(seconds)];
      assert f[..1] == [DigitChar(0)];
      assert DigitsValue(f[..1]) == 0 by {
        assert f[..1][..0] == [];
      }
      assert DigitsValue(f) == 0 * 10 + seconds;
    } else {
      assert NatToString(seconds / 10) == [DigitChar(seconds / 10)];
      assert f == [DigitChar(seconds / 10), DigitChar(seconds % 10)];
      assert f[..1] == [DigitChar(seconds / 10)];
      assert DigitsValue(f[..1]) == seconds / 10 by {
        assert f[..1][..0] == [];
      }
      assert DigitsValue(f) == (seconds / 10) * 10 + seconds % 10;
    }
  }

  /** The text the component renders: minutes, a colon, and the padded seconds. */
  function Display(t: int): string
  {
    var (minutes, seconds) := Clock(t);
    IntToString(minutes) + ":" + PadSeconds(seconds)
  }

  /**
   For a non-negative remaining time the display is `M:SS`: minutes, a colon,
   and exactly two second digits, and reading both parts back recovers the time.
   */
  lemma DisplayReadsBack(t: int)
    requires t >= 0
    ensures
      var s := Display(t);
      && |s| >= 4
      && s[|s| - 3] == ':'
      && AllDigits(s[..|s| - 3]) && AllDigits(s[|s| - 2..])
      && DigitsValue(s[..|s| - 3]) == t / 60
      && DigitsValue(s[|s| - 2..]) == t % 60
      && 60 * DigitsValue(s[..|s| - 3]) + DigitsValue(s[|s| - 2..]) == t
  {
    var minutes := t / 60;
    var seconds := t % 60;
    NatToStringReadsBack(minutes);
    PadSecondsTwoDigits(seconds);
    var m := NatToString(minutes);
    var ss := PadSeconds(seconds);
    var s := Display(t);
    assert s == m + ":" + ss;
    assert s[..|s| - 3] == m;
    assert s[|s| - 2..] == ss;
  }
}

=== FILE: game.dfy ===
/**
 Model of the session state machine of src/components/Game.jsx: starting a
 practice or challenge game, generating rounds, the once-only guess, scoring
 in challenge modes, advancing to the next round or to the results, returning
 to the menu, and the highlighting of the answer buttons.

 React state is a record and every handler a pure transition. React batches
 the setters of one handler, and a handler reads the state of the render it
 was created in; the transitions below follow that. The random date is left
 out: the caller supplies its weekday.
 */
module Game {

  import opened Wrappers

  datatype Screen = Menu | HowTo | Playing | Results

  /** The three game modes the menu offers. */
  datatype Mode = Practice | Challenge5 | Challenge10
  {
    /** The string the component stores in `gameMode`. */
    function Name(): string {
      match this
      case Practice => "practice"
      case Challenge5 => "challenge_5"
      case Challenge10 => "challenge_10"
    }

    /** `gameMode.startsWith('challenge')`. */
    predicate IsChallenge() {
      "challenge" <= Name()
    }
  }

  /** `totalRounds`: a count, or `Infinity` for practice. */
  datatype Total = Infinite | Finite(n: int)

  /** `currentRound >= totalRounds`; nothing reaches `Infinity`. */
  predicate Reached(round: int, total: Total) {
    total.Finite? && round >= total.n
  }

  /** `totalRounds > 0`, the guard of the average time on the results screen. */
  predicate HasAverage(total: Total) {
    total.Infinite? || total.n > 0
  }

  /** A weekday as `Date.getDay()` returns it, Sunday being 0. */
  type Weekday = d: int | 0 <= d < 7

  /** The text of the message area, by shape. */
  datatype Message =
    | Blank                       // the initial empty message
    | Prompt                      // "What day of the week is it?"
    | RoundOf(round: int, total: Total) // "Date <round> of <total>"
    | CorrectWas(day: Option<int>)      // "Correct! It was a <day>."
    | WrongWas(day: Option<int>)        // "Not quite. The correct day was <day>."

  /** The component's state; `correctAnswers` is the field of `finalResults`. */
  datatype State = State(
    screen: Screen,
    gameMode: Option<Mode>,
    totalRounds: Total,
    currentRound: int,
    correctDayIndex: Option<int>,
    userGuess: Option<int>,
    isRoundFinished: bool,
    correctAnswers: int,
    message: Message)

  /** The state the component mounts with. */
  const Initial: State := State(Menu, None, Finite(0), 1, None, None, false, 0, Blank)

  /** The round count each menu button passes to `setupAndStartGame`. */
  function MenuRounds(mode: Mode): Total {
    match mode
    case Practice => Infinite
    case Challenge5 => Finite(5)
    case Challenge10 => Finite(10)
  }

  /** True when only the fields of the current round and the message differ. */
  predicate SameSession(a: State, b: State) {
    && a.screen == b.screen
    && a.gameMode == b.gameMode
    && a.totalRounds == b.totalRounds
    && a.currentRound == b.currentRound
    && a.correctAnswers == b.correctAnswers
  }

  /**
   startNewRound, run by a handler created in the render of `s`: a new open
   round whose correct answer is `day`, with the message built from `s`.
   */
  function StartNewRound(s: State, day: Weekday): (r: State)
    ensures SameSession(r, s)
    ensures r.correctDayIndex == Some(day)
    ensures !r.isRoundFinished && r.userGuess == None
    ensures r.message == if s.gameMode == Some(Practice) then Prompt else RoundOf(s.currentRound, s.totalRounds)
  {
    s.(correctDayIndex := Some(day),
       isRoundFinished := false,
       userGuess := None,
       message := if s.gameMode == Some(Practice) then Prompt else RoundOf(s.currentRound, s.totalRounds))
  }

  /**
   setupAndStartGame as the source writes it: `startNewRound` runs in the
   handler, so it reads the mode, round and total of the render the menu was
   drawn in, not the ones being set.
   */
  function SetupAndStartGameAsWritten(s: State, mode: Mode, rounds: Total, day: Weekday): (r: State)
    ensures r.screen == Playing && r.gameMode == Some(mode) && r.totalRounds == rounds
    ensures r.currentRound == 1 && r.correctAnswers == 0
    ensures r.correctDayIndex == Some(day) && !r.isRoundFinished && r.userGuess == None
    ensures r.message == if s.gameMode == Some(Practice) then Prompt else RoundOf(s.currentRound, s.totalRounds)
  {
    StartNewRound(s, day).(
      gameMode := Some(mode),
      totalRounds := rounds,
      currentRound := 1,
      correctAnswers := 0,
      screen := Playing)
  }

  /** The stale message: the first practice round of a fresh component says "Date 1 of 0". */
  lemma StaleFirstMessage(day: Weekday)
    ensures SetupAndStartGameAsWritten(Initial, Practice, Infinite, day).message == RoundOf(1, Finite(0))
    ensures SetupAndStartGame(Initial, Practice, Infinite, day).message == Prompt
  {
  }

  /**
   setupAndStartGame with the message the new game evidently intends: the
   game is playing round 1 of `rounds` in `mode`, no answer is counted yet,
   and the round is open.
   */
  function SetupAndStartGame(s: State, mode: Mode, rounds: Total, day: Weekday): (r: State)
    ensures r.screen == Playing
    ensures r.gameMode == Some(mode) && r.totalRounds == rounds
    ensures r.currentRound == 1 && r.correctAnswers == 0
    ensures r.correctDayIndex == Some(day) && 0 <= r.correctDayIndex.value <= 6
    ensures !r.isRoundFinished && r.userGuess == None
    ensures r.message == if mode == Practice then Prompt else RoundOf(1, rounds)
  {
    var configured := s.(gameMode := Some(mode), totalRounds := rounds, currentRound := 1, correctAnswers := 0);
    StartNewRound(configured, day).(screen := Playing)
  }

  /** The written start and the corrected one differ only in the message. */
  lemma SetupDiffersOnlyInMessage(s: State, mode: Mode, rounds: Total, day: Weekday)
    ensures var written := SetupAndStartGameAsWritten(s, mode, rounds, day);
      written.(message := SetupAndStartGame(s, mode, rounds, day).message) == SetupAndStartGame(s, mode, rounds, day)
  {
  }

  /**
   handleGuess: a finished round ignores the guess; otherwise the guess is
   recorded, the round closes, and a challenge counts a correct answer.
   The source dereferences `gameMode`, so a mode must be set.
   */
  function HandleGuess(s: State, guess: int): (r: State)
    requires s.gameMode.Some?
    ensures s.isRoundFinished ==> r == s
    ensures SameSession(r, s.(correctAnswers := r.correctAnswers))
    ensures r.correctDayIndex == s.correctDayIndex
    ensures !s.isRoundFinished ==> r.userGuess == Some(guess) && r.isRoundFinished
    ensures !s.isRoundFinished ==>
      r.correctAnswers == s.correctAnswers + (if s.gameMode.value.IsChallenge() && Some(guess) == s.correctDayIndex then 1 else 0)
    ensures s.gameMode == Some(Practice) ==> r.correctAnswers == s.correctAnswers
    ensures !s.isRoundFinished ==>
      r.message == if Some(guess) == s.correctDayIndex then CorrectWas(s.correctDayIndex) else WrongWas(s.correctDayIndex)
  {
    if s.isRoundFinished then s
    else
      var wasCorrect := Some(guess) == s.correctDayIndex;
      s.(userGuess := Some(guess),
         message := if wasCorrect then CorrectWas(s.correctDayIndex) else WrongWas(s.correctDayIndex),
         correctAnswers := if s.gameMode.value.IsChallenge() && wasCorrect then s.correctAnswers + 1 else s.correctAnswers,
         isRoundFinished := true)
  }

  /** A round takes one answer: a second guess changes nothing. */
  lemma GuessOnce(s: State, first: int, second: int)
    requires s.gameMode.Some?
    ensures HandleGuess(HandleGuess(s, first), second) == HandleGuess(s, first)
  {
  }

  /**
   handleNext, followed by the effect that starts a round whenever a
   challenge's `currentRound` moves past 1 while playing. `day` is the weekday
   of the round that may start.
   */
  function HandleNext(s: State, day: Weekday): (r: State)
    requires s.gameMode.Some?
    ensures r.gameMode == s.gameMode && r.totalRounds == s.totalRounds && r.correctAnswers == s.correctAnswers
    ensures s.gameMode == Some(Practice) ==>
      && r.screen == s.screen && r.currentRound == s.currentRound
      && r.correctDayIndex == Some(day) && !r.isRoundFinished && r.userGuess == None && r.message == Prompt
    ensures s.gameMode.value.IsChallenge() && Reached(s.currentRound, s.totalRounds) ==> r == s.(screen := Results)
    ensures s.gameMode.value.IsChallenge() && !Reached(s.currentRound, s.totalRounds) ==>
      && r.screen == s.screen && r.currentRound == s.currentRound + 1
      && (s.screen == Playing && s.currentRound >= 1 ==>
            r.correctDayIndex == Some(day) && !r.isRoundFinished && r.userGuess == None
            && r.message == RoundOf(s.currentRound + 1, s.totalRounds))
    ensures r.screen == Results <==>
      s.screen == Results || (s.gameMode.value.IsChallenge() && Reached(s.currentRound, s.totalRounds))
  {
    if s.gameMode == Some(Practice) then StartNewRound(s, day)
    else if Reached(s.currentRound, s.totalRounds) then s.(screen := Results)
    else
      var advanced := s.(currentRound := s.currentRound + 1);
      if advanced.screen == Playing && advanced.gameMode.value.IsChallenge() && advanced.currentRound > 1
      then StartNewRound(advanced, day)
      else advanced
  }

  /** returnToMenu: back to the menu with no mode; the rest of the state is kept. */
  function ReturnToMenu(s: State): (r: State)
    ensures r.screen == Menu && r.gameMode == None
    ensures r.(screen := s.screen, gameMode := s.gameMode) == s
  {
    s.(screen := Menu, gameMode := None)
  }

  lemma ReturnToMenuIdempotent(s: State)
    ensures ReturnToMenu(ReturnToMenu(s)) == ReturnToMenu(s)
  {
  }

  /** The "How to Play" button of the menu: only the screen changes. */
  function ShowHowTo(s: State): (r: State)
    ensures r.screen == HowTo
    ensures r.(screen := s.screen) == s
  {
    s.(screen := HowTo)
  }

  // ---------------------------------------------------------------------------
  // Answer highlighting
  // ---------------------------------------------------------------------------

  datatype ButtonClass = Unmarked | CorrectAnswer | WrongAnswer | OtherButton
  {
    function ClassName(): string {
      match this
      case Unmarked => ""
      case CorrectAnswer => "correct-answer"
      case WrongAnswer => "wrong-answer"
      case OtherButton => "other-button"
    }
  }

  /** getButtonClassName for the button of weekday `index`. */
  function ButtonClassName(s: State, index: int): (c: ButtonClass)
    ensures c == Unmarked <==> !s.isRoundFinished
    ensures c == CorrectAnswer <==> s.isRoundFinished && Some(index) == s.correctDayIndex
    ensures c == WrongAnswer <==> s.isRoundFinished && Some(index) != s.correctDayIndex && Some(index) == s.userGuess
    ensures !s.isRoundFinished ==> c.ClassName() == ""
    ensures s.isRoundFinished && Some(index) == s.correctDayIndex ==> c.ClassName() == "correct-answer"
    ensures s.isRoundFinished && Some(index) != s.correctDayIndex && Some(index) == s.userGuess ==> c.ClassName() == "wrong-answer"
    ensures s.isRoundFinished && Some(index) != s.correctDayIndex && Some(index) != s.userGuess ==> c.ClassName() == "other-button"
  {
    if !s.isRoundFinished then Unmarked
    else if Some(index) == s.correctDayIndex then CorrectAnswer
    else if Some(index) == s.userGuess then WrongAnswer
    else OtherButton
  }

  /**
   After a guess on an open round, exactly the correct day is marked correct,
   the guessed day is marked wrong only when it is not the correct one, and
   every other button is marked as neither.
   */
  lemma HighlightAfterGuess(s: State, guess: int, index: int)
    requires s.gameMode.Some? && !s.isRoundFinished && s.correctDayIndex.Some?
    ensures var c := ButtonClassName(HandleGuess(s, guess), index);
      && (c == CorrectAnswer <==> index == s.correctDayIndex.value)
      && (c == WrongAnswer <==> index == guess && guess != s.correctDayIndex.value)
      && (c == OtherButton <==> index != guess && index != s.correctDayIndex.value)
  {
  }

  // ---------------------------------------------------------------------------
  // The session invariant
  // ---------------------------------------------------------------------------

  /** The rounds answered so far in a challenge: the earlier ones and, once closed, the current one. */
  function Answered(s: State): int {
    s.currentRound - 1 + (if s.isRoundFinished then 1 else 0)
  }

  predicate Inv(s: State) {
    && s.correctAnswers >= 0
    && (s.isRoundFinished <==> s.userGuess.Some?)
    && ((s.screen == Menu || s.screen == HowTo) ==> s.gameMode == None)
    && ((s.screen == Playing || s.screen == Results) ==> s.gameMode.Some? && s.correctDayIndex.Some?)
    && (s.gameMode == Some(Practice) ==>
          s.totalRounds == Infinite && s.currentRound == 1 && s.correctAnswers == 0)
    && (s.gameMode.Some? && s.gameMode.value.IsChallenge() ==>
          && s.totalRounds == MenuRounds(s.gameMode.value)
          && 1 <= s.currentRound <= s.totalRounds.n
          && s.correctAnswers <= Answered(s))
    && (s.screen == Results ==>
          s.gameMode.value.IsChallenge() && s.currentRound == s.totalRounds.n)
  }

  /** What the player can do, one event per button. */
  datatype Event =
    | Start(mode: Mode, day: Weekday)
    | OpenHowTo
    | Guess(index: int)
    | Next(day: Weekday)
    | BackToMenu

  /** Which buttons the current screen shows. */
  predicate Enabled(s: State, e: Event) {
    match e
    case Start(_, _) => s.screen == Menu
    case OpenHowTo => s.screen == Menu
    case Guess(_) => s.screen == Playing && !s.isRoundFinished
    case Next(_) => s.screen == Playing && s.isRoundFinished
    case BackToMenu => s.screen != Menu
  }

  function Apply(s: State, e: Event): State
    requires Inv(s) && Enabled(s, e)
  {
    match e
    case Start(mode, day) => SetupAndStartGameAsWritten(s, mode, MenuRounds(mode), day)
    case OpenHowTo => ShowHowTo(s)
    case Guess(index) => HandleGuess(s, index)
    case Next(day) => HandleNext(s, day)
    case BackToMenu => ReturnToMenu(s)
  }

  lemma InitialInv()
    ensures Inv(Initial)
  {
  }

  /** Every button keeps the invariant. */
  lemma InvPreserved(s: State, e: Event)
    requires Inv(s) && Enabled(s, e)
    ensures Inv(Apply(s, e))
  {
    match e
    case Start(mode, day) =>
    case OpenHowTo =>
    case Guess(index) =>
    case Next(day) =>
    case BackToMenu =>
  }

  /** The state after the player presses the buttons of `events` in turn, if each was shown. */
  function RunEvents(s: State, events: seq<Event>): (r: Option<State>)
    requires Inv(s)
    ensures r.Some? ==> Inv(r.value)
    decreases |events|
  {
    if |events| == 0 then Some(s)
    else if !Enabled(s, events[0]) then None
    else
      InvPreserved(s, events[0]);
      RunEvents(Apply(s, events[0]), events[1..])
  }

  /**
   In every state the buttons can reach, a challenge has counted at most one
   correct answer per round played and so at most `totalRounds`, practice
   has counted none, and the results screen has a positive round count to
   average over.
   */
  lemma ReachableBounds(events: seq<Event>)
    ensures var r := RunEvents(Initial, events);
      r.Some? ==>
        && (r.value.gameMode.Some? && r.value.gameMode.value.IsChallenge() ==>
              0 <= r.value.correctAnswers <= r.value.totalRounds.n)
        && (r.value.gameMode == Some(Practice) ==> r.value.correctAnswers == 0)
        && (r.value.screen == Results ==> HasAverage(r.value.totalRounds) && r.value.totalRounds.n > 0)
  {
    InitialInv();
  }

  // ---------------------------------------------------------------------------
  // Whole sessions
  // ---------------------------------------------------------------------------

  /**
   The player answers `guesses[k]` and presses "Next" for each round in turn;
   `days[k]` is the weekday of the round that press may start.
   */
  function Play(s: State, guesses: seq<int>, days: seq<Weekday>): State
    requires s.gameMode.Some? && |days| == |guesses|
    decreases |guesses|
  {
    if |guesses| == 0 then s
    else Play(HandleNext(HandleGuess(s, guesses[0]), days[0]), guesses[1..], days[1..])
  }

  /** How many guesses hit the weekday of their round. */
  function CountMatches(guesses: seq<int>, answers: seq<int>): nat
    requires |guesses| == |answers|
  {
    if |guesses| == 0 then 0
    else (if guesses[0] == answers[0] then 1 else 0) + CountMatches(guesses[1..], answers[1..])
  }

  /**
   From an open round `currentRound` of a challenge, answering every remaining
   round and pressing "Next" after each reaches the results screen on the last
   round, having counted exactly the correct answers.
   */
  lemma {:induction false} ChallengeRunsToResults(s: State, guesses: seq<int>, days: seq<Weekday>)
    requires s.screen == Playing && s.gameMode.Some? && s.gameMode.value.IsChallenge()
    requires s.totalRounds.Finite? && 1 <= s.currentRound <= s.totalRounds.n
    requires !s.isRoundFinished && s.correctDayIndex.Some?
    requires |guesses| == |days| == s.totalRounds.n - s.currentRound + 1
    ensures var r := Play(s, guesses, days);
      && r.screen == Results
      && r.currentRound == s.totalRounds.n
      && r.correctAnswers == s.correctAnswers + CountMatches(guesses, [s.correctDayIndex.value] + days[..|days| - 1])
    decreases |guesses|
  {
    var answers := [s.correctDayIndex.value] + days[..|days| - 1];
    var guessed := HandleGuess(s, guesses[0]);
    var next := HandleNext(guessed, days[0]);
    if s.currentRound == s.totalRounds.n {
      assert next == guessed.(screen := Results);
      assert Play(s, guesses, days) == Play(next, guesses[1..], days[1..]);
      assert CountMatches(guesses, answers) == if guesses[0] == answers[0] then 1 else 0;
    } else {
      ChallengeRunsToResults(next, guesses[1..], days[1..]);
      assert answers[1..] == [days[0]] + days[1..][..|days[1..]| - 1];
    }
  }

  /** A 5- or 10-date challenge started from the menu ends on the results screen after its last round. */
  lemma ChallengeFromMenu(s: State, mode: Mode, first: Weekday, guesses: seq<int>, days: seq<Weekday>)
    requires mode.IsChallenge()
    requires |guesses| == |days| == MenuRounds(mode).n
    ensures var r := Play(SetupAndStartGameAsWritten(s, mode, MenuRounds(mode), first), guesses, days);
      && r.screen == Results
      && r.correctAnswers == CountMatches(guesses, [first] + days[..|days| - 1])
      && r.correctAnswers <= MenuRounds(mode).n
  {
    var start := SetupAndStartGameAsWritten(s, mode, MenuRounds(mode), first);
    ChallengeRunsToResults(start, guesses, days);
    CountMatchesBound(guesses, [first] + days[..|days| - 1]);
  }

  lemma {:induction false} CountMatchesBound(guesses: seq<int>, answers: seq<int>)
    requires |guesses| == |answers|
    ensures CountMatches(guesses, answers) <= |guesses|
  {
    if |guesses| > 0 {
      CountMatchesBound(guesses[1..], answers[1..]);
    }
  }

  /** Practice never reaches the results screen, never leaves round 1 and never scores. */
  lemma {:induction false} PracticeNeverEnds(s: State, guesses: seq<int>, days: seq<Weekday>)
    requires s.screen == Playing && s.gameMode == Some(Practice)
    requires |guesses| == |days|
    ensures var r := Play(s, guesses, days);
      && r.screen == Playing
      && r.gameMode == Some(Practice)
      && r.currentRound == s.currentRound
      && r.correctAnswers == s.correctAnswers
    decreases |guesses|
  {
    if |guesses| > 0 {
      PracticeNeverEnds(HandleNext(HandleGuess(s, guesses[0]), days[0]), guesses[1..], days[1..]);
    }
  }
}

=== FILE: leaderboard.dfy ===
/**
 Model of the ranking in src/components/Leaderboard.jsx: the listing fetched
 from the score API is split per challenge mode, and each part gets standard
 competition ranks ("1, 1, 3") by `processScores`.
 */
module Leaderboard {

  import opened Scores

  /** A listed row with the rank `processScores` adds to it. */
  datatype Ranked = Ranked(row: Row, rank: int)

  /**
   The rank `processScores` gives the row at index `i`. The running rank starts
   at 1 and jumps to the 1-based position whenever a row has a lower score than
   its predecessor, or the same score and a longer time; otherwise it is kept.
   */
  function RankOf(s: seq<Row>, i: nat): int
    requires i < |s|
  {
    if i == 0 then 1
    else if Better(s[i - 1], s[i]) then i + 1
    else RankOf(s, i - 1)
  }

  /** processScores: each row, unchanged and in place, with its rank. */
  method ProcessScores(scores: seq<Row>) returns (ranked: seq<Ranked>)
    ensures |ranked| == |scores|
    ensures forall i :: 0 <= i < |scores| ==> ranked[i].row == scores[i]
    ensures forall i :: 0 <= i < |scores| ==> ranked[i].rank == RankOf(scores, i)
    ensures |scores| > 0 ==> ranked[0].rank == 1
    ensures forall i :: 0 < i < |scores| && Better(scores[i - 1], scores[i]) ==> ranked[i].rank == i + 1
    ensures forall i :: 0 < i < |scores| && !Better(scores[i - 1], scores[i]) ==> ranked[i].rank == ranked[i - 1].rank
  {
    var rank := 1;
    ranked := [];
    for index := 0 to |scores|
      invariant |ranked| == index
      invariant forall i :: 0 <= i < index ==> ranked[i] == Ranked(scores[i], RankOf(scores, i))
      invariant index == 0 ==> rank == 1
      invariant index > 0 ==> rank == RankOf(scores, index - 1)
    {
      if index > 0 {
        var prev := scores[index - 1];
        var cur := scores[index];
        if cur.score < prev.score || (cur.score == prev.score && cur.time > prev.time) {
          rank := index + 1;
        }
      }
      ranked := ranked + [Ranked(scores[index], rank)];
    }
  }

  /** Every rank lies between 1 and the row's 1-based position. */
  lemma {:induction false} RankBounds(s: seq<Row>, i: nat)
    requires i < |s|
    ensures 1 <= RankOf(s, i) <= i + 1
  {
    if i > 0 && !Better(s[i - 1], s[i]) {
      RankBounds(s, i - 1);
    }
  }

  /** Ranks never decrease down the list, sorted or not. */
  lemma {:induction false} RankMonotone(s: seq<Row>, i: nat, j: nat)
    requires i <= j < |s|
    ensures RankOf(s, i) <= RankOf(s, j)
  {
    if i < j {
      RankMonotone(s, i, j - 1);
      if Better(s[j - 1], s[j]) {
        RankBounds(s, j - 1);
      }
    }
  }

  // ---------------------------------------------------------------------------
  // Competition ranking
  // ---------------------------------------------------------------------------

  /** How many rows of `s` are strictly better than `x`. */
  function CountAhead(s: seq<Row>, x: Row): nat
  {
    if |s| == 0 then 0
    else CountAhead(s[..|s| - 1], x) + (if Better(s[|s| - 1], x) then 1 else 0)
  }

  lemma {:induction false} CountAheadAppend(a: seq<Row>, b: seq<Row>, x: Row)
    ensures CountAhead(a + b, x) == CountAhead(a, x) + CountAhead(b, x)
  {
    if |b| > 0 {
      assert (a + b)[..|a + b| - 1] == a + b[..|b| - 1];
      CountAheadAppend(a, b[..|b| - 1], x);
    } else {
      assert a + b == a;
    }
  }

  lemma {:induction false} CountAheadNone(s: seq<Row>, x: Row)
    requires forall k :: 0 <= k < |s| ==> !Better(s[k], x)
    ensures CountAhead(s, x) == 0
  {
    if |s| > 0 {
      CountAheadNone(s[..|s| - 1], x);
    }
  }

  lemma {:induction false} CountAheadAll(s: seq<Row>, x: Row)
    requires forall k :: 0 <= k < |s| ==> Better(s[k], x)
    ensures CountAhead(s, x) == |s|
  {
    if |s| > 0 {
      CountAheadAll(s[..|s| - 1], x);
    }
  }

  lemma {:induction false} CountAheadSameKey(s: seq<Row>, x: Row, y: Row)
    requires x.score == y.score && x.time == y.time
    ensures CountAhead(s, x) == CountAhead(s, y)
  {
    if |s| > 0 {
      CountAheadSameKey(s[..|s| - 1], x, y);
    }
  }

  /** On a sorted listing, every row before one that falls behind its predecessor is strictly ahead of it. */
  lemma AllAheadOfWorse(s: seq<Row>, i: nat)
    requires Sorted(s)
    requires 0 < i < |s| && Better(s[i - 1], s[i])
    ensures CountAhead(s[..i], s[i]) == i
  {
    forall k | 0 <= k < i
      ensures Better(s[..i][k], s[i])
    {
      assert s[..i][k] == s[k];
      if k < i - 1 {
        assert AtLeastAsGood(s[k], s[i - 1]);
      }
    }
    CountAheadAll(s[..i], s[i]);
  }

  /**
   On a sorted listing, `processScores` ranks are standard competition ranks:
   one more than the number of rows strictly ahead.
   */
  lemma {:induction false} CompetitionRank(s: seq<Row>, i: nat)
    requires Sorted(s)
    requires i < |s|
    ensures RankOf(s, i) == 1 + CountAhead(s, s[i])
  {
    assert s == s[..i] + s[i..];
    CountAheadAppend(s[..i], s[i..], s[i]);
    CountAheadNone(s[i..], s[i]);
    if i == 0 {
    } else if Better(s[i - 1], s[i]) {
      AllAheadOfWorse(s, i);
    } else {
      assert AtLeastAsGood(s[i - 1], s[i]);
      CountAheadSameKey(s, s[i], s[i - 1]);
      CompetitionRank(s, i - 1);
    }
  }

  // ---------------------------------------------------------------------------
  // Per-mode boards
  // ---------------------------------------------------------------------------

  /** The rows of one mode, as `scores.filter(s => s.mode === mode)` keeps them. */
  function ForMode(s: seq<Row>, mode: string): (r: seq<Row>)
    ensures forall k :: 0 <= k < |r| ==> r[k].mode == mode
    ensures forall x :: x in r <==> x in s && x.mode == mode
    ensures |r| <= |s|
  {
    if |s| == 0 then []
    else if s[0].mode == mode then [s[0]] + ForMode(s[1..], mode)
    else ForMode(s[1..], mode)
  }

  /** `a` is `b` with some rows dropped and the rest in their order. */
  predicate Subsequence(a: seq<Row>, b: seq<Row>)
    decreases |b|
  {
    |a| == 0 || (|b| > 0 && ((a[0] == b[0] && Subsequence(a[1..], b[1..])) || Subsequence(a, b[1..])))
  }

  /** The filter keeps relative order and drops no row of its mode. */
  lemma {:induction false} ForModeOrder(s: seq<Row>, mode: string)
    ensures Subsequence(ForMode(s, mode), s)
    ensures forall x :: multiset(ForMode(s, mode))[x] == if x.mode == mode then multiset(s)[x] else 0
  {
    if |s| > 0 {
      ForModeOrder(s[1..], mode);
      assert s == [s[0]] + s[1..];
      if s[0].mode == mode {
        assert ([s[0]] + ForMode(s[1..], mode))[1..] == ForMode(s[1..], mode);
      } else {
        var r := ForMode(s[1..], mode);
        if |r| > 0 {
          assert Subsequence(r, s[1..]);
        }
      }
    }
  }

  /** Filtering a sorted listing leaves it sorted. */
  lemma {:induction false} ForModeKeepsSorted(s: seq<Row>, mode: string)
    requires Sorted(s)
    ensures Sorted(ForMode(s, mode))
  {
    if |s| > 0 {
      assert Sorted(s[1..]) by {
        forall i, j | 0 <= i < j < |s[1..]|
          ensures AtLeastAsGood(s[1..][i], s[1..][j])
        {
          assert s[1..][i] == s[i + 1] && s[1..][j] == s[j + 1];
        }
      }
      ForModeKeepsSorted(s[1..], mode);
      if s[0].mode == mode {
        var t := ForMode(s[1..], mode);
        forall k | 0 <= k < |t|
          ensures AtLeastAsGood(s[0], t[k])
        {
          assert t[k] in s[1..];
          var m :| 0 <= m < |s[1..]| && s[1..][m] == t[k];
          assert s[m + 1] == t[k];
        }
        ConsSorted(s[0], t);
      }
    }
  }

  /** The two boards the leaderboard shows, from the rows the API returned. */
  method Boards(rows: seq<Row>) returns (board5: seq<Ranked>, board10: seq<Ranked>)
    ensures |board5| == |ForMode(rows, Challenge5Name)| && |board10| == |ForMode(rows, Challenge10Name)|
    ensures forall i :: 0 <= i < |board5| ==> board5[i].row.mode == Challenge5Name
    ensures forall i :: 0 <= i < |board10| ==> board10[i].row.mode == Challenge10Name
    ensures forall i :: 0 <= i < |board5| ==> board5[i] == Ranked(ForMode(rows, Challenge5Name)[i], RankOf(ForMode(rows, Challenge5Name), i))
    ensures forall i :: 0 <= i < |board10| ==> board10[i] == Ranked(ForMode(rows, Challenge10Name)[i], RankOf(ForMode(rows, Challenge10Name), i))
  {
    board5 := ProcessScores(ForMode(rows, Challenge5Name));
    board10 := ProcessScores(ForMode(rows, Challenge10Name));
  }

  /**
   End to end: on any sorted listing, which is what a successful GET returns
   (`HandleGet`), each per-mode board ranks a row one above the number of rows
   of that mode strictly ahead of it.
   */
  lemma BoardRanksAreCompetitionRanks(listing: seq<Row>, mode: string, i: nat)
    requires Sorted(listing)
    requires i < |ForMode(listing, mode)|
    ensures
      var board := ForMode(listing, mode);
      RankOf(board, i) == 1 + CountAhead(board, board[i])
  {
    ForModeKeepsSorted(listing, mode);
    CompetitionRank(ForMode(listing, mode), i);
  }
}

=== FILE: scores.dfy ===
/**
 Model of the score API handler (api/scores.js): method dispatch, the POST
 validation chain followed by an insert, and the GET listing ordered by score
 descending, then time ascending.

 The Postgres table is an abstract sequence of rows; whether the database
 call succeeds is a parameter.
 */
module Scores {

  import opened Wrappers

  /** A row of the Scores table as the API stores and returns it. */
  datatype Row = Row(name: string, mode: string, score: int, time: real)

  /** `a` sorts strictly before `b`: a higher score, or the same score in less time. */
  predicate Better(a: Row, b: Row) {
    a.score > b.score || (a.score == b.score && a.time < b.time)
  }

  /** `a` may sort before `b`: `b` is not strictly better. */
  predicate AtLeastAsGood(a: Row, b: Row) {
    !Better(b, a)
  }

  /** Ordered as `ORDER BY score DESC, time ASC` leaves them. */
  predicate Sorted(s: seq<Row>) {
    forall i, j :: 0 <= i < j < |s| ==> AtLeastAsGood(s[i], s[j])
  }

  /** Puts `x` into `s` before the first row it is at least as good as. */
  function Insert(x: Row, s: seq<Row>): (r: seq<Row>)
    ensures multiset(r) == multiset(s) + multiset{x}
  {
    if |s| == 0 then [x]
    else if AtLeastAsGood(x, s[0]) then [x] + s
    else
      assert s == [s[0]] + s[1..];
      [s[0]] + Insert(x, s[1..])
  }

  /** "At least as good as" is transitive, so the listing order is a total preorder. */
  lemma AtLeastAsGoodTransitive(a: Row, b: Row, c: Row)
    requires AtLeastAsGood(a, b) && AtLeastAsGood(b, c)
    ensures AtLeastAsGood(a, c)
  {
  }

  /** A row at least as good as every row of a sorted listing may head it. */
  lemma ConsSorted(h: Row, t: seq<Row>)
    requires Sorted(t)
    requires forall k :: 0 <= k < |t| ==> AtLeastAsGood(h, t[k])
    ensures Sorted([h] + t)
  {
    var r := [h] + t;
    forall i, j | 0 <= i < j < |r|
      ensures AtLeastAsGood(r[i], r[j])
    {
      assert r[j] == t[j - 1];
      if i > 0 {
        assert r[i] == t[i - 1];
      }
    }
  }

  /** Inserting into a sorted listing keeps it sorted. */
  lemma {:induction false} InsertKeepsSorted(x: Row, s: seq<Row>)
    requires Sorted(s)
    ensures Sorted(Insert(x, s))
  {
    if |s| == 0 {
    } else if AtLeastAsGood(x, s[0]) {
      forall k | 0 <= k < |s|
        ensures AtLeastAsGood(x, s[k])
      {
        if k > 0 {
          AtLeastAsGoodTransitive(x, s[0], s[k]);
        }
      }
      ConsSorted(x, s);
    } else {
      var tail := Insert(x, s[1..]);
      InsertKeepsSorted(x, s[1..]);
      assert Insert(x, s) == [s[0]] + tail;
      forall k | 0 <= k < |tail|
        ensures AtLeastAsGood(s[0], tail[k])
      {
        assert tail[k] in multiset(tail);
        if tail[k] != x {
          assert tail[k] in multiset(s[1..]);
          assert tail[k] in s[1..];
          var m :| 0 <= m < |s[1..]| && s[1..][m] == tail[k];
          assert s[m + 1] == tail[k];
        }
      }
      ConsSorted(s[0], tail);
    }
  }

  /** The rows in the order the SELECT of handleGet returns them. */
  function SortForListing(s: seq<Row>): (r: seq<Row>)
    ensures Sorted(r)
    ensures multiset(r) == multiset(s)
  {
    if |s| == 0 then []
    else
      assert s == [s[0]] + s[1..];
      var rest := SortForListing(s[1..]);
      InsertKeepsSorted(s[0], rest);
      Insert(s[0], rest)
  }

  // ---------------------------------------------------------------------------
  // Requests and responses
  // ---------------------------------------------------------------------------

  /** A value of the parsed JSON request body; `Undefined` is a missing key. */
  datatype JsValue = Undefined | Null | Bool(b: bool) | Num(x: real) | Str(s: string) | Composite

  /** JavaScript truthiness, as `!name` and `!mode` test it. */
  predicate Truthy(v: JsValue) {
    match v
    case Undefined => false
    case Null => false
    case Bool(b) => b
    case Num(x) => x != 0.0
    case Str(s) => |s| > 0
    case Composite => true
  }

  /** The fields destructured from `request.body`. */
  datatype Fields = Fields(name: JsValue, mode: JsValue, score: JsValue, time: JsValue)

  /** An HTTP request: its method and its body; `None` is a body that cannot be destructured. */
  datatype Request = Request(verb: string, body: Option<Fields>)

  datatype Reply =
    | MethodNotAllowed
    | MissingFields
    | InvalidName
    | InvalidMode
    | Saved
    | Listing(rows: seq<Row>)
    | ServerError

  /** The HTTP status code each reply is sent with. */
  function Status(r: Reply): int {
    match r
    case MethodNotAllowed => 405
    case MissingFields => 400
    case InvalidName => 400
    case InvalidMode => 400
    case Saved => 201
    case Listing(_) => 200
    case ServerError => 500
  }

  /** The reply and the table after the request. */
  datatype Outcome = Outcome(reply: Reply, table: seq<Row>)

  /** The two mode names the leaderboard accepts and stores. */
  const Challenge5Name: string := "challenge_5"
  const Challenge10Name: string := "challenge_10"
  const MaxNameLength: nat := 15

  /** The first check of handlePost: a required field is missing (falsy name or mode, undefined score or time). */
  predicate Missing(f: Fields) {
    !Truthy(f.name) || !Truthy(f.mode) || f.score == Undefined || f.time == Undefined
  }

  /**
   JavaScript's `length` of a string: UTF-16 code units, so a character
   outside the Basic Multilingual Plane counts twice.
   */
  function JsLength(s: string): (n: nat)
    ensures |s| <= n <= 2 * |s|
    ensures (forall k :: 0 <= k < |s| ==> s[k] as int < 0x1_0000) ==> n == |s|
  {
    if |s| == 0 then 0
    else JsLength(s[..|s| - 1]) + (if s[|s| - 1] as int >= 0x1_0000 then 2 else 1)
  }

  /** JavaScript's length of a string is the sum of the lengths of its parts. */
  lemma {:induction false} JsLengthConcat(a: string, b: string)
    ensures JsLength(a + b) == JsLength(a) + JsLength(b)
    decreases |b|
  {
    if |b| == 0 {
      assert a + b == a;
    } else {
      var c := a + b;
      assert c[..|c| - 1] == a + b[..|b| - 1];
      assert c[|c| - 1] == b[|b| - 1];
      JsLengthConcat(a, b[..|b| - 1]);
    }
  }

  /** One character is two code units outside the Basic Multilingual Plane and one inside it. */
  lemma JsLengthChar(c: char)
    ensures JsLength([c]) == if c as int >= 0x1_0000 then 2 else 1
  {
    assert [c][..0] == [];
  }

  /** Thirteen `a`s and one U+1F600 are exactly fifteen code units, so the name is accepted. */
  lemma MixedNameFits()
    ensures JsLength(seq(13, _ => 'a') + ['\U{1F600}']) == MaxNameLength
  {
    var a := seq(13, _ => 'a');
    JsLengthConcat(a, ['\U{1F600}']);
    JsLengthChar('\U{1F600}');
  }

  /** The second check: the name is not a string of 1 to 15 UTF-16 code units. */
  predicate BadName(f: Fields) {
    !f.name.Str? || JsLength(f.name.s) > MaxNameLength || JsLength(f.name.s) < 1
  }

  /** The third check: the mode is neither leaderboard mode. */
  predicate BadMode(f: Fields) {
    f.mode != Str(Challenge5Name) && f.mode != Str(Challenge10Name)
  }

  /** The range of a Postgres INT column. */
  const IntMin: int := -0x8000_0000
  const IntMax: int := 0x7FFF_FFFF

  /**
   The values the INT and FLOAT columns receive, when the database accepts
   them: the score must be a whole number within INT's range.
   */
  function ColumnValues(score: JsValue, time: JsValue): (r: Option<(int, real)>)
    ensures r.Some? <==>
      score.Num? && time.Num? && score.x == score.x.Floor as real && IntMin <= score.x.Floor <= IntMax
    ensures r.Some? ==> r.value.0 as real == score.x && r.value.1 == time.x
  {
    if score.Num? && time.Num? && score.x == score.x.Floor as real && IntMin <= score.x.Floor <= IntMax
    then Some((score.x.Floor, time.x))
    else None
  }

  /** Whether a Postgres text column can hold the string: it cannot hold U+0000. */
  predicate TextStorable(t: string) {
    forall k :: 0 <= k < |t| ==> t[k] != '\0'
  }

  /** The validation chain of handlePost, in source order; `None` when the fields pass. */
  function Validate(f: Fields): (r: Option<Reply>)
    ensures r == None <==> !Missing(f) && !BadName(f) && !BadMode(f)
    ensures r.Some? ==> Status(r.value) == 400
    ensures Missing(f) ==> r == Some(MissingFields)
    ensures !Missing(f) && BadName(f) ==> r == Some(InvalidName)
    ensures !Missing(f) && !BadName(f) && BadMode(f) ==> r == Some(InvalidMode)
    ensures f.name == Str("") ==> r == Some(MissingFields)
    ensures Truthy(f.name) && Truthy(f.mode) && f.score == Num(0.0) && f.time != Undefined ==> r != Some(MissingFields)
  {
    if Missing(f) then Some(MissingFields)
    else if BadName(f) then Some(InvalidName)
    else if BadMode(f) then Some(InvalidMode)
    else None
  }

  /** handlePost: validate, then insert one row; `dbOk` says whether the SQL call succeeds. */
  function HandlePost(body: Option<Fields>, table: seq<Row>, dbOk: bool): (o: Outcome)
    ensures o.reply.Saved? <==> o.table != table
    ensures o.reply.Saved? ==>
      && body.Some? && !Missing(body.value) && !BadName(body.value) && !BadMode(body.value)
      && dbOk
      && ColumnValues(body.value.score, body.value.time).Some?
      && TextStorable(body.value.name.s)
      && o.table == table + [Row(body.value.name.s, body.value.mode.s,
                                 ColumnValues(body.value.score, body.value.time).value.0,
                                 ColumnValues(body.value.score, body.value.time).value.1)]
    ensures !o.reply.Saved? ==> o.table == table
    ensures body.Some? && Validate(body.value).Some? ==> o.reply == Validate(body.value).value
    ensures body.Some? && Validate(body.value) == None && ColumnValues(body.value.score, body.value.time).Some?
            && TextStorable(body.value.name.s) && dbOk
            ==> o.reply == Saved
    ensures (body.None? || (Validate(body.value) == None &&
              (!dbOk || ColumnValues(body.value.score, body.value.time).None? || !TextStorable(body.value.name.s))))
            ==> o.reply == ServerError
  {
    match body
    case None => Outcome(ServerError, table)
    case Some(f) =>
      match Validate(f)
      case Some(err) => Outcome(err, table)
      case None =>
        match ColumnValues(f.score, f.time)
        case None => Outcome(ServerError, table)
        case Some(v) =>
          if dbOk && TextStorable(f.name.s) then Outcome(Saved, table + [Row(f.name.s, f.mode.s, v.0, v.1)])
          else Outcome(ServerError, table)
  }

  /**
   A request passes validation exactly when its name is a string of 1 to 15
   UTF-16 code units, its mode is one of the two leaderboard modes, and its
   score and time are present.
   */
  lemma PassesExactlyWhenWellFormed(f: Fields)
    ensures Validate(f) == None <==>
      && f.name.Str? && 1 <= JsLength(f.name.s) <= MaxNameLength
      && (f.mode == Str(Challenge5Name) || f.mode == Str(Challenge10Name))
      && f.score != Undefined && f.time != Undefined
  {
  }

  /** Eight U+1F600 characters are sixteen code units, one over the limit, so the name is refused. */
  lemma AstralNameTooLong(mode: JsValue, score: JsValue, time: JsValue)
    requires Truthy(mode) && score != Undefined && time != Undefined
    ensures var name := seq(8, _ => '\U{1F600}');
      Validate(Fields(Str(name), mode, score, time)) == Some(InvalidName)
  {
    var name := seq(8, _ => '\U{1F600}');
    assert forall k :: 0 <= k < |name| ==> name[k] as int >= 0x1_0000;
    AllAstralLength(name);
  }

  lemma {:induction false} AllAstralLength(s: string)
    requires forall k :: 0 <= k < |s| ==> s[k] as int >= 0x1_0000
    ensures JsLength(s) == 2 * |s|
  {
    if |s| > 0 {
      AllAstralLength(s[..|s| - 1]);
    }
  }

  /** A score beyond INT's range fails at the insert: 500, and nothing is stored. */
  lemma ScoreOutOfRangeNotSaved(f: Fields, table: seq<Row>)
    requires Validate(f) == None
    requires f.score == Num(3000000000.0)
    ensures HandlePost(Some(f), table, true) == Outcome(ServerError, table)
  {
  }

  /** A name holding U+0000 passes every check but fails at the insert: 500, and nothing is stored. */
  lemma NulNameNotSaved(f: Fields, table: seq<Row>, dbOk: bool)
    requires Validate(f) == None
    requires f.name == Str(['\0'])
    ensures HandlePost(Some(f), table, dbOk) == Outcome(ServerError, table)
  {
  }

  /** handleGet: every row, best first; the table is unchanged. */
  function HandleGet(table: seq<Row>, dbOk: bool): (o: Outcome)
    ensures o.table == table
    ensures dbOk ==> o.reply.Listing? && Sorted(o.reply.rows) && multiset(o.reply.rows) == multiset(table)
    ensures !dbOk ==> o.reply == ServerError
  {
    if dbOk then Outcome(Listing(SortForListing(table)), table)
    else Outcome(ServerError, table)
  }

  /** The exported handler: GET lists, POST saves, anything else is refused with 405. */
  function Handle(req: Request, table: seq<Row>, dbOk: bool): (o: Outcome)
    ensures req.verb != "GET" && req.verb != "POST" ==> o == Outcome(MethodNotAllowed, table)
    ensures Status(o.reply) == 405 <==> req.verb != "GET" && req.verb != "POST"
    ensures req.verb == "GET" ==> o.table == table
    ensures req.verb == "GET" ==> o == HandleGet(table, dbOk)
    ensures req.verb == "POST" ==> o == HandlePost(req.body, table, dbOk)
    ensures o.table == table || (req.verb == "POST" && |o.table| == |table| + 1 && o.table[..|table|] == table)
  {
    if req.verb == "GET" then HandleGet(table, dbOk)
    else if req.verb == "POST" then HandlePost(req.body, table, dbOk)
    else Outcome(MethodNotAllowed, table)
  }
}

=== FILE: wrappers.dfy ===
/** The optional value used wherever the source keeps `null` in a slot. */
module Wrappers {

  datatype Option<+T> = None | Some(value: T)

}
